=== FILE: README.md ===
# Recipe engagement, trending, search cache and create form — a Dafny model

This project models the parts of the recipe-sharing application that carry real rules. The
rest of the application is request plumbing and views. The modelled parts are:

- **Engagement on a recipe** (server): the per-user rating upsert, the append-only comment list,
  the favorites list kept duplicate-free (for requests handled one at a time), and the
  `averageRating` value a recipe derives from its ratings on every read.
- **The recipe routes as state transitions** (server): create, read, update, delete, favorite,
  rate and comment. Each takes the stored documents and, except the read, the authenticated
  user's id. Each returns a status, a response body and the documents after the handler's save
  or remove. This includes the 404 and 403 guards, which leave the store as it was.
- **Trending**: sort every recipe by (rating count, comment count, creation time), each
  descending, and keep the first ten.
- **Search filter construction** (server): which query parameters add which constraint.
- **The search result cache** (client): localStorage is a `map<string, Entry>` and the clock is
  an `int` of milliseconds. The model covers the key format, the lookup that serves only
  unexpired entries, the store with a five-minute expiry, the expiry sweep at page mount, and
  the search flow that writes the cache only after an ok response.
- **The create-recipe form** (client): `validateForm`, the list editors, and what submit sends.

Modules follow the program: `RecipeModel` (the recipe document and its average), `Engagement`
(the list edits), `Routes` (the handlers), `Trending`, `SearchFilter`, `SearchCache`,
`RecipeForm`, `Text` (ECMAScript `trim`), `Basics` (an option type and id types), and
`EndToEnd` (the form and the create route together). Everything is a pure function over
immutable values, except `SearchCache.SweepExpired`, which is a loop over the storage keys.

The code makes fewer checks than a reader might expect, and the model follows the code:

- Ratings have no 1–5 range check. Any number is stored, and the detail page can send 0.
- Comments may be empty. Nothing checks the text.
- Trending has no limit parameter. It always keeps ten.
- A cache lookup never deletes an expired entry. Only the sweep deletes, and only entries strictly
  past their expiry, so an entry at exactly its expiry instant is neither served nor swept.
- The cache key is not injective. It is injective in each single field with the other two fixed
  (`SearchCache.CacheKeyDistinguishesQuery` and its two siblings). Two fields can still trade an underscore
  (`SearchCache.CacheKeyCollides`).
- Ratings are a list scanned with `findIndex`, not a map keyed by user. "One rating per user" is
  an invariant the upsert preserves when requests are handled one at a time
  (`Routes.RatePreservesConsistency`). The data structure does not enforce it, and overlapping
  requests can break it (see "## Left out").

## Model

| member | source | states |
|---|---|---|
| `Text.Trim` | recipe/src/pages/CreateRecipe.js:38-42 | `s.trim()` is empty exactly when every character of `s` is ECMAScript white space; a non-empty result starts and ends with a non-space |
| `RecipeModel.AverageRating` | recipe/server/models/Recipe.js:19-23 | the average of no ratings is exactly 0; otherwise the average times the number of ratings is the sum of the scores |
| `RecipeModel.RatingSumRemove` | recipe/server/models/Recipe.js:21 | taking one rating out of the list takes exactly its score out of the sum |
| `RecipeModel.RatingSumPermutation` | recipe/server/models/Recipe.js:21 | the sum of the scores does not depend on the order the ratings are stored in |
| `RecipeModel.AveragePermutationInvariant` | recipe/server/models/Recipe.js:19-23 | two rating lists holding the same entries have the same average |
| `RecipeModel.AverageWithinBounds` | recipe/server/models/Recipe.js:19-23 | if every score lies in [lo, hi], so does the average (the schema itself imposes no range) |
| `Engagement.FindRating` | recipe/server/routes/recipes.js:87 | `findIndex` gives -1 exactly when the user has no rating, else the first position holding the user's rating |
| `Engagement.ScoreOf` | recipe/server/routes/recipes.js:87 | the score read for a user is absent exactly when the user has not rated, and otherwise comes from one of the user's entries |
| `Engagement.UpsertRating` | recipe/server/routes/recipes.js:87-92 | a user who has rated keeps the list length, and only the entry `findIndex` reports (the user's first) is overwritten, every other entry staying in place; a new rater is appended at the end; the user's score afterwards is the new one |
| `Engagement.UpsertKeepsOtherScores` | recipe/server/routes/recipes.js:87-92 | rating leaves every other user's score unchanged |
| `Engagement.UpsertKeepsOneRatingPerUser` | recipe/server/routes/recipes.js:87-92 | with at most one entry per user, rating keeps that invariant and overwrites exactly the user's entry |
| `Engagement.RerateOverwrites` | recipe/server/routes/recipes.js:87-92 | rating twice is the same as rating once with the second score: only the last score counts |
| `Engagement.TwoRatersInTurn` | recipe/server/routes/recipes.js:87-92 | two different users rating a recipe with no ratings leave two entries, in the order they rated |
| `Engagement.FirstRaterRerates` | recipe/server/routes/recipes.js:87-89 | the first rater re-rating overwrites the first entry in place and leaves the second as it was |
| `Engagement.RerateExample` | recipe/server/routes/recipes.js:87-95 | ratings {A: 4, B: 2} average 3; A re-rating 5 overwrites A's entry, keeps two entries, and gives average 3.5 |
| `Engagement.UpsertOverwritesOnlyFirstEntry` | recipe/server/routes/recipes.js:87-89 | on a list holding two entries for one user, rating again overwrites only the first: `[A:1, A:5]` rated 3 becomes `[A:3, A:5]`, average 4 |
| `Engagement.AppendComment` | recipe/server/routes/recipes.js:107 | a comment adds exactly one entry, at the end, and keeps every earlier comment in place |
| `Engagement.CommentsAccumulate` | recipe/server/routes/recipes.js:107 | the same comment from the same user posted twice is stored twice |
| `Engagement.AddFavorite` | recipe/server/routes/recipes.js:71-74 | the id ends up in the favorites; nothing else is added; an id already present changes nothing; a duplicate-free list stays duplicate-free |
| `Engagement.AddFavoriteIdempotent` | recipe/server/routes/recipes.js:71-74 | favoriting the same recipe twice is the same as once |
| `Routes.CreateRecipe` | recipe/server/routes/recipes.js:9-13 | answers 201; the stored recipe has the body's fields, the authenticated user as author whatever the body says, no ratings or comments, and the server clock as creation time |
| `Routes.GetRecipe` | recipe/server/routes/recipes.js:30-34 | 404 exactly for a missing id, and 200 with the stored document exactly for an existing one; the store never changes |
| `Routes.UpdateRecipe` | recipe/server/routes/recipes.js:41-48 | 404 exactly for a missing recipe, 403 exactly for a recipe of another author, both with the store unchanged; 200 exactly for the author of an existing recipe, and then ratings, comments, author and creation time are kept, and other recipes are untouched |
| `Routes.DeleteRecipe` | recipe/server/routes/recipes.js:55-61 | 404 and 403 exactly as for update, with the store unchanged; 200 exactly for the author of an existing recipe, and then only that recipe is gone |
| `Routes.FavoriteRecipe` | recipe/server/routes/recipes.js:68-78 | 500 with nothing saved exactly when the user document is missing, and 200 exactly when it exists; then the user's name is kept, the favorites are exactly as before when the id is already there and gain the id at the end otherwise, and no other document changes |
| `Routes.RateRecipe` | recipe/server/routes/recipes.js:82-95 | 404 with the store unchanged for a missing recipe; otherwise the saved ratings are exactly the upsert of the user's score into the stored list, so the user's score is the new one and every other user's score is kept; every field of the recipe other than its ratings (author, creation time, title, lists, comments) is kept, and the reply is the average of the ratings as saved |
| `Routes.CommentOnRecipe` | recipe/server/routes/recipes.js:102-111 | 404 with the store unchanged for a missing recipe; otherwise exactly one comment, stamped with the server clock, is appended after the earlier ones, every other field of the recipe (ratings, author, creation time, title, lists) is kept, and the reply is the full list |
| `Routes.CreatePreservesConsistency` | recipe/server/routes/recipes.js:9-13 | for a body carrying only the form's fields, creating a recipe keeps one rating per user and duplicate-free favorites across the store |
| `Routes.UpdatePreservesConsistency` | recipe/server/routes/recipes.js:41-48 | for a body carrying only the form's fields, updating keeps the store-wide invariants |
| `Routes.DeletePreservesConsistency` | recipe/server/routes/recipes.js:55-61 | deleting keeps the store-wide invariants |
| `Routes.FavoritePreservesConsistency` | recipe/server/routes/recipes.js:68-78 | with requests handled one at a time, favoriting keeps the store-wide invariants |
| `Routes.RatePreservesConsistency` | recipe/server/routes/recipes.js:82-95 | with requests handled one at a time, rating keeps at most one rating per user on every recipe |
| `Routes.CommentPreservesConsistency` | recipe/server/routes/recipes.js:102-111 | commenting keeps the store-wide invariants |
| `Trending.Insert` | recipe/server/routes/recipes.js:140 | insertion adds exactly the one recipe and loses none |
| `Trending.InsertKeepsBound` | recipe/server/routes/recipes.js:140 | a recipe ranking at least as high as the inserted one and the whole list still ranks at least as high as everything after the insertion |
| `Trending.InsertKeepsSorted` | recipe/server/routes/recipes.js:140 | inserting into a list in trending order keeps it in trending order |
| `Trending.SortByEngagement` | recipe/server/routes/recipes.js:140 | the `$sort` stage yields a permutation of the recipes in (rating count, comment count, creation time) descending order |
| `Trending.TrendingRecipes` | recipe/server/routes/recipes.js:138-141 | the result has min(10, n) recipes, all from the collection, in trending order |
| `Trending.SortedCut` | recipe/server/routes/recipes.js:140-141 | in trending order, every recipe before a cut ranks at least as high as every recipe after it |
| `Trending.TrendingIsTopK` | recipe/server/routes/recipes.js:138-141 | no recipe left out of the result ranks strictly above a recipe in it |
| `Trending.ShortCollectionsAreReturnedWhole` | recipe/server/routes/recipes.js:141 | with ten recipes or fewer, every recipe is returned |
| `Trending.CommentCountBreaksTies` | recipe/server/routes/recipes.js:140 | with equal rating counts and creation times, 3 comments rank before 2 |
| `Trending.RatingCountRanksFirst` | recipe/server/routes/recipes.js:140 | a recipe with one rating ranks before one with none |
| `SearchFilter.BuildFilter` | recipe/server/routes/recipes.js:120-127 | a parameter adds a constraint exactly when it is present and non-empty, and the constraint carries that parameter's value |
| `SearchFilter.SearchSemantics` | recipe/server/routes/recipes.js:122-127 | a recipe is selected exactly when the query (if given) matches its title or some ingredient, and the difficulty and cuisine (if given) are equal to its own |
| `SearchFilter.FindRecipes` | recipe/server/routes/recipes.js:128 | the results are exactly the stored recipes the filter selects |
| `SearchFilter.EmptySearchReturnsAll` | recipe/server/routes/recipes.js:120-128 | with every parameter empty or absent, every recipe is returned, in stored order |
| `SearchCache.CacheKey` | recipe/src/pages/SearchRecipes.js:30-32 | the key always starts with `recipeSearch_`, carries the query right after it, and its length is the three fields' plus the prefix and two separators |
| `SearchCache.CacheKeyDistinguishesQuery` | recipe/src/pages/SearchRecipes.js:30-32 | two searches that differ only in the query get different keys |
| `SearchCache.CacheKeyDistinguishesDifficulty` | recipe/src/pages/SearchRecipes.js:30-32 | two searches that differ only in the difficulty get different keys |
| `SearchCache.CacheKeyDistinguishesCuisine` | recipe/src/pages/SearchRecipes.js:30-32 | two searches that differ only in the cuisine get different keys |
| `SearchCache.CacheKeyCollides` | recipe/src/pages/SearchRecipes.js:30-32 | two different searches can share one key, because the separator is not escaped |
| `SearchCache.GetCachedResults` | recipe/src/pages/SearchRecipes.js:34-43 | a lookup hits exactly when the key is stored and the clock is strictly before its expiry, and then yields the stored results |
| `SearchCache.SetCachedResults` | recipe/src/pages/SearchRecipes.js:45-51 | storing writes the results with an expiry of now + 300000 under the key, replacing any entry, and touches no other key |
| `SearchCache.StoreThenLookup` | recipe/src/pages/SearchRecipes.js:38-48 | results stored at t are served at every t' < t + 300000 and missed at every t' >= t + 300000 |
| `SearchCache.LastWriterWins` | recipe/src/pages/SearchRecipes.js:45-51 | of two stores under one key only the second is kept |
| `SearchCache.ClearExpiredCache` | recipe/src/pages/SearchRecipes.js:18-28 | the sweep removes exactly the prefixed keys whose expiry is strictly before now; unprefixed and unexpired entries are kept as they were |
| `SearchCache.SweepExpired` | recipe/src/pages/SearchRecipes.js:18-28 | the key-by-key loop ends with exactly the storage the sweep describes |
| `SearchCache.SweepIdempotent` | recipe/src/pages/SearchRecipes.js:18-28 | sweeping twice at the same instant is the same as once |
| `SearchCache.SweepPreservesLookups` | recipe/src/pages/SearchRecipes.js:18-43 | a sweep at now changes no lookup made at now or later |
| `SearchCache.ExpiryInstantIsNeitherServedNorSwept` | recipe/src/pages/SearchRecipes.js:18-43 | an entry whose expiry equals now is a miss and survives the sweep |
| `SearchCache.HandleSearch` | recipe/src/pages/SearchRecipes.js:53-76 | a hit, an empty list included, is shown with no request and no cache change; on a miss the request is made, and only an ok response is shown and cached; a failed or thrown request leaves the results and the cache unchanged; an ok response whose cache write throws is shown but leaves the cache unchanged |
| `SearchCache.RepeatSearchHitsCache` | recipe/src/pages/SearchRecipes.js:53-76 | the same search repeated within five minutes of a successful one shows the same results without a request |
| `SearchCache.FailedWriteShowsButRefetches` | recipe/src/pages/SearchRecipes.js:45-51 | when the cache write throws, the fetched results are still shown, nothing is cached, and the same search again makes a new request |
| `SearchCache.FailedSearchLeavesCache` | recipe/src/pages/SearchRecipes.js:63-74 | a response that is not ok, or a thrown request, never writes the cache |
| `RecipeForm.ValidateForm` | recipe/src/pages/CreateRecipe.js:36-44 | each error key is present exactly when its own field fails: blank title, some blank ingredient, some blank instruction, empty difficulty, blank cuisine |
| `RecipeForm.ValidIffAllFieldsFilled` | recipe/src/pages/CreateRecipe.js:36-44 | the form has no errors exactly when title, every ingredient, every instruction and cuisine have a non-space character and the difficulty is non-empty |
| `RecipeForm.DifficultyIsNotTrimmed` | recipe/src/pages/CreateRecipe.js:38-41 | a difficulty of one space passes, while a title of one space fails |
| `RecipeForm.InitialFormFailsEverything` | recipe/src/pages/CreateRecipe.js:6-44 | the untouched form reports all five errors |
| `RecipeForm.AddEntry` | recipe/src/pages/CreateRecipe.js:16-28 | adding an ingredient or an instruction appends one empty entry and keeps all earlier ones |
| `RecipeForm.ChangeEntry` | recipe/src/pages/CreateRecipe.js:20-34 | editing an entry keeps the length, sets that index and leaves every other index as it was |
| `RecipeForm.FilterFilled` | recipe/src/pages/CreateRecipe.js:63-64 | the blank filter never lengthens a list, leaves no blank entry, and keeps every non-blank string exactly as many times as the list holds it |
| `RecipeForm.FilterFilledKeepsFilledEntries` | recipe/src/pages/CreateRecipe.js:63-64 | a string survives the filter exactly when it is on the list and not blank |
| `RecipeForm.FilterFilledAppend` | recipe/src/pages/CreateRecipe.js:63-64 | the filter works entry by entry and keeps the order: filtering a concatenation is the concatenation of the filtered parts |
| `RecipeForm.FilterFilledIdentity` | recipe/src/pages/CreateRecipe.js:39-40 | a list with no blank entry, which is what validation lets through, goes through the filter unchanged |
| `RecipeForm.Submit` | recipe/src/pages/CreateRecipe.js:46-68 | with any error nothing is sent and the errors are shown; with a valid form and nobody signed in, the submit error is shown and nothing is sent; otherwise the body carries the form's fields and lists unchanged, and the signed-in user as author |
| `EndToEnd.SubmittedFormIsStoredAsFilled` | recipe/server/routes/recipes.js:9-13 | a valid form is stored with its fields as filled in, and its author is the authenticated user rather than the id the page sent |

## Left out

- Persistence, Express and the database connection are not modelled. A save or remove is the
  returned state. The 500 answers for a failing save, a failing lookup or an id that cannot be
  cast are also left out. The one 500 kept is the favorite route's missing user document,
  because the handler's own code causes it.
- The authentication middleware is not part of this model. Its outcome is the `me` parameter.
  The model assumes the middleware rejects a request without a valid token before any handler
  runs.
- `populate` name resolution (author names, comment authors) is left out. It changes no stored
  data.
- Routes.CreateRecipe: only the form's five fields are taken from the body. Mongoose would also
  accept `ratings`, `comments` or `createdAt` sent in a hand-made request body.
- Routes.UpdateRecipe: only the five text fields are patched. `Object.assign` would copy any
  field of the body, including `author`, `ratings` and `comments`.
- Routes.CreateRecipe: the database picks the fresh id. Its freshness is a precondition.
- Routes.RateRecipe: a score is a `real`. A body `rating` that is not a number, which mongoose
  would cast or reject, is not modelled.
- SearchFilter.FindRecipes: the regular-expression match of the query is the `matches`
  parameter, not substring search. A query that is not a valid regular expression (a 500) is not
  modelled.
- Trending.TrendingRecipes: the order of recipes with equal keys is the one insertion sort gives.
  The database leaves that order unspecified, so only the ordering, the size and the top-k
  property are claimed.
- SearchCache.ClearExpiredCache: localStorage values are cache entries. The sweep never reads
  unprefixed keys. A prefixed key holding text that is not JSON would make `JSON.parse` throw,
  and that is not modelled.
- SearchCache.HandleSearch: `isLoading`, rendering, and the interleaving of concurrent searches
  are left out. `response.json()` failing counts as a thrown request.
- SearchFilter.BuildFilter: query parameters are modelled as strings only. Express can also parse
  a repeated parameter into an array, or a bracketed one into an object, which the route copies
  into the filter as a query operator rather than an equality.
- Routes.CreatePreservesConsistency: holds only for a body carrying the form's fields. A hand-made
  body with its own `ratings` list, such as two ratings by one user, is stored as sent and breaks
  one rating per user.
- Routes.UpdatePreservesConsistency: holds only for a body carrying the form's fields.
  `Object.assign` would copy a body-supplied `ratings` list as sent, with the same effect.
- Routes.FavoritePreservesConsistency: requests are modelled one at a time. The favorite route
  reads the user, checks `includes`, then pushes and saves without any atomicity, so two
  overlapping favorites of the same id can both pass the check and store the id twice.
- Routes.RatePreservesConsistency: requests are modelled one at a time. The rate route reads the
  recipe, edits it and saves it without any atomicity, so two overlapping first ratings by the
  same user can each append an entry and break one rating per user.
- Real clocks are replaced by integer parameters: `now` for the lookup and `storedAt` for the
  write after the await.
- Floating point is not modelled. The average is an exact `real`. IEEE rounding and the
  detail page's `toFixed(1)` are left out.
- RecipeForm.Submit: a request that fails after being posted (a network error or a response that
  is not ok) and the navigation after success belong to the server round trip and are not
  modelled. The submit outcome covers the case where no request is made.
- RecipeForm.ChangeEntry: the page calls the editors only with the index of a rendered entry. A
  JavaScript write past the end, which would leave holes, is not modelled.
- The detail, home and header views, the app's routing and the server bootstrap are
  presentation or setup only.

=== FILE: basics.dfy ===
/** Shared vocabulary: optional values and the identifiers the application passes around. */
module Basics {

  /** A value that may be absent; stands in for JavaScript's `null`/`undefined`. */
  datatype Option<+T> = None | Some(value: T)

  /** A user's document id, compared by its string form as the server does. */
  type UserId = string

  /** A recipe's document id, in its string form. */
  type RecipeId = string
}

=== FILE: end_to_end.dfy ===
/** How the client's create form and the server's create route fit together. */
module EndToEnd {
  import opened Basics
  import opened RecipeForm
  import opened Routes

  /**
   * A form that passes validation is stored as filled in, and its author is the user the server
   * authenticated, not the id the page put in the body.
   */
  lemma SubmittedFormIsStoredAsFilled(f: Form, pageUser: UserId, db: Db, me: UserId, freshId: RecipeId, now: int)
    requires ValidateForm(f) == {}
    requires freshId !in db.recipes
    ensures var out := Submit(f, Some(pageUser));
      && out.Submitted?
      && var stored := CreateRecipe(db, me, out.body, freshId, now).db.recipes[freshId];
      && stored.title == f.title && stored.ingredients == f.ingredients && stored.instructions == f.instructions
      && stored.difficulty == f.difficulty && stored.cuisineType == f.cuisineType
      && stored.author == me && stored.ratings == [] && stored.comments == []
  {
  }
}

=== FILE: engagement.dfy ===
/**
 * The list edits the rate, comment and favorite routes make to a recipe or a user:
 * a per-user rating upsert, an append-only comment log and a duplicate-free favorites list.
 */
module Engagement {
  import opened Basics
  import opened RecipeModel

  /** `findIndex` over the ratings: the first position holding `u`'s rating, or -1. */
  function FindRating(rs: seq<Rating>, u: UserId): (i: int)
    ensures -1 <= i < |rs|
    ensures i == -1 <==> forall j :: 0 <= j < |rs| ==> rs[j].user != u
    ensures i >= 0 ==> rs[i].user == u && forall j :: 0 <= j < i ==> rs[j].user != u
  {
    if rs == [] then -1
    else if rs[0].user == u then 0
    else
      var k := FindRating(rs[1..], u);
      if k == -1 then -1 else k + 1
  }

  /** The first entry for `u` is the one `findIndex` reports. */
  lemma FindRatingAt(rs: seq<Rating>, u: UserId, i: int)
    requires 0 <= i < |rs| && rs[i].user == u
    requires forall j :: 0 <= j < i ==> rs[j].user != u
    ensures FindRating(rs, u) == i
  {
  }

  /** True when `u` has a rating on the list. */
  predicate HasRated(rs: seq<Rating>, u: UserId) {
    exists j :: 0 <= j < |rs| && rs[j].user == u
  }

  /** At most one rating per user: the invariant the upsert is meant to keep. */
  predicate OneRatingPerUser(rs: seq<Rating>) {
    forall i, j :: 0 <= i < j < |rs| ==> rs[i].user != rs[j].user
  }

  /** The score the list records for `u`, read through the first entry for `u`. */
  function ScoreOf(rs: seq<Rating>, u: UserId): (v: Option<real>)
    ensures v.None? <==> !HasRated(rs, u)
    ensures v.Some? ==> exists j :: 0 <= j < |rs| && rs[j] == Rating(u, v.value)
  {
    var i := FindRating(rs, u);
    if i == -1 then None else Some(rs[i].rating)
  }

  /**
   * The rate route's edit: overwrite the score of `u`'s existing entry in place, or append
   * a new entry for `u` at the end when there is none.
   */
  function UpsertRating(rs: seq<Rating>, u: UserId, score: real): (r: seq<Rating>)
    ensures HasRated(rs, u) ==> |r| == |rs|
    ensures !HasRated(rs, u) ==> r == rs + [Rating(u, score)]
    ensures forall j :: 0 <= j < |rs| && rs[j].user != u ==> r[j] == rs[j]
    ensures HasRated(rs, u) ==> r[FindRating(rs, u)] == Rating(u, score)
    ensures HasRated(rs, u) ==> forall j :: 0 <= j < |rs| && j != FindRating(rs, u) ==> r[j] == rs[j]
    ensures ScoreOf(r, u) == Some(score)
  {
    var i := FindRating(rs, u);
    if i > -1 then
      var r := rs[i := Rating(u, score)];
      FindRatingAt(r, u, i);
      r
    else
      var r := rs + [Rating(u, score)];
      FindRatingAt(r, u, |rs|);
      r
  }

  /** Rating never disturbs what the list records for any other user. */
  lemma UpsertKeepsOtherScores(rs: seq<Rating>, u: UserId, score: real, w: UserId)
    requires w != u
    ensures ScoreOf(UpsertRating(rs, u, score), w) == ScoreOf(rs, w)
  {
    var r := UpsertRating(rs, u, score);
    var i := FindRating(rs, w);
    var i' := FindRating(r, w);
    assert forall j :: 0 <= j < |rs| ==> (r[j].user == w <==> rs[j].user == w);
    if i == -1 {
      assert i' == -1;
    } else {
      assert i' == i;
    }
  }

  /** With one entry per user, the upsert overwrites exactly `u`'s entry and keeps the invariant. */
  lemma UpsertKeepsOneRatingPerUser(rs: seq<Rating>, u: UserId, score: real)
    requires OneRatingPerUser(rs)
    ensures OneRatingPerUser(UpsertRating(rs, u, score))
    ensures HasRated(rs, u) ==>
      forall j :: 0 <= j < |rs| ==> UpsertRating(rs, u, score)[j] == (if rs[j].user == u then Rating(u, score) else rs[j])
  {
  }

  /** A second score from the same user replaces the first: only the last one counts. */
  lemma {:induction false} RerateOverwrites(rs: seq<Rating>, u: UserId, first: real, second: real)
    ensures UpsertRating(UpsertRating(rs, u, first), u, second) == UpsertRating(rs, u, second)
  {
    var once := UpsertRating(rs, u, first);
    var i := FindRating(rs, u);
    if i > -1 {
      assert once == rs[i := Rating(u, first)];
      FindRatingAt(once, u, i);
      assert once[i := Rating(u, second)] == rs[i := Rating(u, second)];
    } else {
      assert once == rs + [Rating(u, first)];
      FindRatingAt(once, u, |rs|);
      assert once[|rs| := Rating(u, second)] == rs + [Rating(u, second)];
    }
  }

  /** Two users rating in turn leave two entries, in the order they rated. */
  lemma TwoRatersInTurn(a: UserId, b: UserId, x: real, y: real)
    requires a != b
    ensures UpsertRating(UpsertRating([], a, x), b, y) == [Rating(a, x), Rating(b, y)]
  {
    var one := UpsertRating([], a, x);
    assert one == [Rating(a, x)];
    assert !HasRated(one, b);
  }

  /** The first rater re-rating overwrites the first entry in place. */
  lemma FirstRaterRerates(a: UserId, b: UserId, x: real, y: real, z: real)
    ensures UpsertRating([Rating(a, x), Rating(b, y)], a, z) == [Rating(a, z), Rating(b, y)]
  {
    FindRatingAt([Rating(a, x), Rating(b, y)], a, 0);
  }

  /**
   * For example: users A and B score 4 and 2 (average 3); A re-rates 5, giving an
   * average of 3.5 with still two entries.
   */
  lemma RerateExample(a: UserId, b: UserId)
    requires a != b
    ensures AverageRating([Rating(a, 4.0), Rating(b, 2.0)]) == 3.0
    ensures UpsertRating([Rating(a, 4.0), Rating(b, 2.0)], a, 5.0) == [Rating(a, 5.0), Rating(b, 2.0)]
    ensures AverageRating([Rating(a, 5.0), Rating(b, 2.0)]) == 3.5
  {
    FirstRaterRerates(a, b, 4.0, 2.0, 5.0);
    RatingSumPair(Rating(a, 4.0), Rating(b, 2.0));
    RatingSumPair(Rating(a, 5.0), Rating(b, 2.0));
  }

  lemma RatingSumPair(x: Rating, y: Rating)
    ensures RatingSum([x, y]) == x.rating + y.rating
  {
    assert [x, y][..1] == [x];
    assert [x][..0] == [];
    assert RatingSum([x]) == x.rating;
  }

  /**
   * On a list that already holds two entries for one user, rating again overwrites only the
   * first of them: `[A:1, A:5]` rated 3 becomes `[A:3, A:5]`, whose average is 4.
   */
  lemma UpsertOverwritesOnlyFirstEntry(a: UserId)
    ensures UpsertRating([Rating(a, 1.0), Rating(a, 5.0)], a, 3.0) == [Rating(a, 3.0), Rating(a, 5.0)]
    ensures AverageRating([Rating(a, 3.0), Rating(a, 5.0)]) == 4.0
  {
    FindRatingAt([Rating(a, 1.0), Rating(a, 5.0)], a, 0);
    RatingSumPair(Rating(a, 3.0), Rating(a, 5.0));
  }

  /** The comment route's edit: append one entry, keeping every earlier comment where it was. */
  function AppendComment(cs: seq<Comment>, c: Comment): (r: seq<Comment>)
    ensures |r| == |cs| + 1
    ensures r[..|cs|] == cs && r[|cs|] == c
  {
    cs + [c]
  }

  /** Comments never merge: the same user may comment the same text any number of times. */
  lemma CommentsAccumulate(cs: seq<Comment>, c: Comment)
    ensures multiset(AppendComment(AppendComment(cs, c), c))[c] == multiset(cs)[c] + 2
  {
    assert AppendComment(AppendComment(cs, c), c) == cs + [c] + [c];
  }

  /** A list without repeated entries. */
  predicate NoDuplicates<T(==)>(s: seq<T>) {
    forall i, j :: 0 <= i < j < |s| ==> s[i] != s[j]
  }

  /** The favorite route's edit: push the recipe id only when `includes` says it is absent. */
  function AddFavorite(favorites: seq<RecipeId>, id: RecipeId): (r: seq<RecipeId>)
    ensures id in r
    ensures forall x :: x in r <==> x in favorites || x == id
    ensures id in favorites ==> r == favorites
    ensures id !in favorites ==> r == favorites + [id]
    ensures NoDuplicates(favorites) ==> NoDuplicates(r)
  {
    if id !in favorites then favorites + [id] else favorites
  }

  lemma AddFavoriteIdempotent(favorites: seq<RecipeId>, id: RecipeId)
    ensures AddFavorite(AddFavorite(favorites, id), id) == AddFavorite(favorites, id)
  {
  }
}

=== FILE: recipe_form.dfy ===
/**
 * The create-recipe form: its field validation, the editors for the ingredient and
 * instruction lists, and what the submit handler sends.
 */
module RecipeForm {
  import opened Basics
  import opened Text
  import opened RecipeModel

  /** The form state. */
  datatype Form = Form(
    title: string,
    ingredients: seq<string>,
    instructions: seq<string>,
    difficulty: string,
    cuisineType: string
  )

  /** The keys `validateForm` may put in its error object. */
  datatype Field = Title | Ingredients | Instructions | Difficulty | CuisineType

  /** The form as the page first shows it: one empty ingredient and one empty instruction. */
  const INITIAL_FORM: Form := Form("", [""], [""], "", "")

  /** `list.some(i => !i.trim())`: some entry trims to nothing. */
  predicate SomeUntrimmed(list: seq<string>) {
    exists i :: 0 <= i < |list| && Trim(list[i]) == []
  }

  const ALL_FIELDS: set<Field> := {Title, Ingredients, Instructions, Difficulty, CuisineType}

  /** The check `validateForm` makes for one field fails. */
  predicate FailsCheck(f: Form, field: Field) {
    match field
    case Title => Trim(f.title) == []
    case Ingredients => SomeUntrimmed(f.ingredients)
    case Instructions => SomeUntrimmed(f.instructions)
    case Difficulty => f.difficulty == ""
    case CuisineType => Trim(f.cuisineType) == []
  }

  /** Some entry is blank. */
  predicate HasBlankEntry(list: seq<string>) {
    exists i :: 0 <= i < |list| && IsBlank(list[i])
  }

  lemma SomeUntrimmedIffBlankEntry(list: seq<string>)
    ensures SomeUntrimmed(list) <==> HasBlankEntry(list)
  {
    if HasBlankEntry(list) {
      var i :| 0 <= i < |list| && IsBlank(list[i]);
      assert Trim(list[i]) == [];
    }
  }

  /** `validateForm`: one error per failed check; difficulty is tested for emptiness without trimming. */
  function ValidateForm(f: Form): (errors: set<Field>)
    ensures Title in errors <==> IsBlank(f.title)
    ensures Ingredients in errors <==> HasBlankEntry(f.ingredients)
    ensures Instructions in errors <==> HasBlankEntry(f.instructions)
    ensures Difficulty in errors <==> f.difficulty == ""
    ensures CuisineType in errors <==> IsBlank(f.cuisineType)
  {
    SomeUntrimmedIffBlankEntry(f.ingredients);
    SomeUntrimmedIffBlankEntry(f.instructions);
    var errors := set field | field in ALL_FIELDS && FailsCheck(f, field);
    assert Title in errors <==> FailsCheck(f, Title);
    assert Ingredients in errors <==> FailsCheck(f, Ingredients);
    assert Instructions in errors <==> FailsCheck(f, Instructions);
    assert Difficulty in errors <==> FailsCheck(f, Difficulty);
    assert CuisineType in errors <==> FailsCheck(f, CuisineType);
    errors
  }

  /** Every entry has a character other than white space. */
  predicate AllFilled(list: seq<string>) {
    forall i :: 0 <= i < |list| ==> !IsBlank(list[i])
  }

  /** The form passes validation exactly when all five conditions hold together. */
  lemma ValidIffAllFieldsFilled(f: Form)
    ensures ValidateForm(f) == {} <==>
      && !IsBlank(f.title)
      && AllFilled(f.ingredients)
      && AllFilled(f.instructions)
      && f.difficulty != ""
      && !IsBlank(f.cuisineType)
  {
    var errors := ValidateForm(f);
    if errors == {} {
      assert Title !in errors && Ingredients !in errors && Instructions !in errors;
      assert Difficulty !in errors && CuisineType !in errors;
    } else {
      var field :| field in errors;
      match field
      case Title =>
      case Ingredients =>
      case Instructions =>
      case Difficulty =>
      case CuisineType =>
    }
  }

  /** A difficulty of one space passes, where a title or cuisine of one space does not. */
  lemma DifficultyIsNotTrimmed(f: Form)
    requires f.difficulty == " "
    ensures Difficulty !in ValidateForm(f)
    ensures f.title == " " ==> Title in ValidateForm(f)
  {
    assert IsSpace(' ');
  }

  /** The untouched form reports all five errors. */
  lemma InitialFormFailsEverything()
    ensures ValidateForm(INITIAL_FORM) == {Title, Ingredients, Instructions, Difficulty, CuisineType}
  {
    assert IsBlank(INITIAL_FORM.ingredients[0]);
    assert IsBlank(INITIAL_FORM.instructions[0]);
  }

  /** `handleAddIngredient` and `handleAddInstruction`: one more, empty, entry at the end. */
  function AddEntry(list: seq<string>): (list': seq<string>)
    ensures |list'| == |list| + 1
    ensures list'[..|list|] == list
    ensures list'[|list|] == ""
  {
    list + [""]
  }

  /**
   * `handleIngredientChange` and `handleInstructionChange`: the edited position takes the new
   * value. The page only calls them with the index of an entry it renders.
   */
  function ChangeEntry(list: seq<string>, index: int, value: string): (list': seq<string>)
    requires 0 <= index < |list|
    ensures |list'| == |list|
    ensures list'[index] == value
    ensures forall j :: 0 <= j < |list| && j != index ==> list'[j] == list[j]
  {
    list[index := value]
  }

  /** `list.filter(i => i.trim())`: the entries that are not blank, in their order. */
  function FilterFilled(list: seq<string>): (kept: seq<string>)
    ensures |kept| <= |list|
    ensures AllFilled(kept)
    ensures forall s :: multiset(kept)[s] == (if IsBlank(s) then 0 else multiset(list)[s])
  {
    if list == [] then []
    else
      var rest := FilterFilled(list[1..]);
      assert multiset(list) == multiset{list[0]} + multiset(list[1..]) by {
        assert list == [list[0]] + list[1..];
      }
      if IsFilled(list[0]) then [list[0]] + rest else rest
  }

  /** The filter keeps exactly the entries that are not blank. */
  lemma {:induction false} FilterFilledKeepsFilledEntries(list: seq<string>)
    ensures forall s :: s in FilterFilled(list) <==> s in list && !IsBlank(s)
    decreases |list|
  {
    if list != [] {
      FilterFilledKeepsFilledEntries(list[1..]);
      assert list == [list[0]] + list[1..];
    }
  }

  /** The filter works entry by entry: filtering a concatenation concatenates the filtered parts. */
  lemma {:induction false} FilterFilledAppend(a: seq<string>, b: seq<string>)
    ensures FilterFilled(a + b) == FilterFilled(a) + FilterFilled(b)
    decreases |a|
  {
    if a == [] {
      assert a + b == b;
    } else {
      assert (a + b)[1..] == a[1..] + b;
      FilterFilledAppend(a[1..], b);
    }
  }

  /** A list with no blank entry goes through the filter unchanged. */
  lemma {:induction false} FilterFilledIdentity(list: seq<string>)
    requires AllFilled(list)
    ensures FilterFilled(list) == list
    decreases |list|
  {
    if list != [] {
      assert AllFilled(list[1..]) by {
        assert forall i :: 0 <= i < |list| - 1 ==> list[1..][i] == list[i + 1];
      }
      FilterFilledIdentity(list[1..]);
      assert !IsBlank(list[0]);
      assert list == [list[0]] + list[1..];
    }
  }

  /**
   * The outcome of pressing submit: the validation errors shown, the submit error shown when the
   * body cannot be built, or the body posted to the server.
   */
  datatype SubmitOutcome = Rejected(errors: set<Field>) | SubmitFailed | Submitted(body: Draft)

  /**
   * `handleSubmit`: with any validation error nothing is sent; otherwise the body carries the
   * fields, the lists with blank entries dropped, and the signed-in user's id as author. With
   * nobody signed in, reading the user's id throws inside the `try`, and the catch shows the
   * submit error without anything being posted.
   */
  function Submit(f: Form, user: Option<UserId>): (out: SubmitOutcome)
    ensures out.Rejected? <==> ValidateForm(f) != {}
    ensures out.Rejected? ==> out.errors == ValidateForm(f)
    ensures out.SubmitFailed? <==> ValidateForm(f) == {} && user.None?
    ensures out.Submitted? ==>
      && out.body.title == f.title && out.body.difficulty == f.difficulty && out.body.cuisineType == f.cuisineType
      && out.body.ingredients == f.ingredients && out.body.instructions == f.instructions
      && user.Some? && out.body.author == user
  {
    var errors := ValidateForm(f);
    if errors != {} then Rejected(errors)
    else
      match user
      case None => SubmitFailed
      case Some(id) =>
        ValidIffAllFieldsFilled(f);
        FilterFilledIdentity(f.ingredients);
        FilterFilledIdentity(f.instructions);
        Submitted(Draft(f.title, FilterFilled(f.ingredients), FilterFilled(f.instructions),
                        f.difficulty, f.cuisineType, Some(id)))
  }
}

=== FILE: recipe_model.dfy ===
/**
 * The recipe document of the server's data model and the `averageRating` value the
 * document derives from its ratings on every read.
 */
module RecipeModel {
  import opened Basics

  /** One user's score for a recipe. The schema stores any Number: there is no range check. */
  datatype Rating = Rating(user: UserId, rating: real)

  /** A comment, stamped with the server clock when it is created. */
  datatype Comment = Comment(user: UserId, text: string, createdAt: int)

  /** A stored recipe document. `averageRating` is deliberately not a field: it is derived. */
  datatype Recipe = Recipe(
    id: RecipeId,
    title: string,
    ingredients: seq<string>,
    instructions: seq<string>,
    difficulty: string,
    cuisineType: string,
    author: UserId,
    ratings: seq<Rating>,
    comments: seq<Comment>,
    createdAt: int
  )

  /** The fields a client sends when it creates a recipe; `author` is whatever the client claims. */
  datatype Draft = Draft(
    title: string,
    ingredients: seq<string>,
    instructions: seq<string>,
    difficulty: string,
    cuisineType: string,
    author: Option<UserId>
  )

  /** The running total of the `reduce` over the ratings, folded from the left. */
  function RatingSum(rs: seq<Rating>): (s: real) {
    if rs == [] then 0.0 else RatingSum(rs[..|rs| - 1]) + rs[|rs| - 1].rating
  }

  /** The `averageRating` virtual: zero for no ratings, otherwise the mean score. */
  function AverageRating(rs: seq<Rating>): (avg: real)
    ensures rs == [] ==> avg == 0.0
    ensures rs != [] ==> avg * (|rs| as real) == RatingSum(rs)
  {
    if |rs| == 0 then 0.0 else RatingSum(rs) / (|rs| as real)
  }

  /** Taking one entry out of the list takes its score out of the sum. */
  lemma {:induction false} RatingSumRemove(b: seq<Rating>, i: int)
    requires 0 <= i < |b|
    ensures RatingSum(b) == RatingSum(b[..i] + b[i + 1..]) + b[i].rating
    decreases |b|
  {
    var init := b[..|b| - 1];
    var removed := b[..i] + b[i + 1..];
    if i == |b| - 1 {
      assert removed == init;
    } else {
      RatingSumRemove(init, i);
      var removedInit := init[..i] + init[i + 1..];
      assert removed == removedInit + [b[|b| - 1]];
      assert removed[..|removed| - 1] == removedInit;
    }
  }

  lemma MultisetRemove(b: seq<Rating>, i: int)
    requires 0 <= i < |b|
    ensures multiset(b[..i] + b[i + 1..]) == multiset(b) - multiset{b[i]}
  {
    assert b == b[..i] + [b[i]] + b[i + 1..];
  }

  /** The sum, hence the average, does not depend on the order in which ratings are stored. */
  lemma {:induction false} RatingSumPermutation(a: seq<Rating>, b: seq<Rating>)
    requires multiset(a) == multiset(b)
    ensures RatingSum(a) == RatingSum(b)
    decreases |a|
  {
    if a == [] {
      assert multiset(b) == multiset{};
    } else {
      var last := a[|a| - 1];
      var a' := a[..|a| - 1];
      assert multiset(a') == multiset(a) - multiset{last} by {
        assert a == a' + [last];
      }
      assert last in b by {
        assert last in multiset(a);
      }
      var i :| 0 <= i < |b| && b[i] == last;
      var b' := b[..i] + b[i + 1..];
      assert multiset(b') == multiset(b) - multiset{last} by {
        MultisetRemove(b, i);
      }
      RatingSumPermutation(a', b');
      RatingSumRemove(b, i);
    }
  }

  lemma AveragePermutationInvariant(a: seq<Rating>, b: seq<Rating>)
    requires multiset(a) == multiset(b)
    ensures AverageRating(a) == AverageRating(b)
  {
    RatingSumPermutation(a, b);
    assert |a| == |multiset(a)| == |b|;
  }

  /** Every score lies in the closed range [lo, hi]. */
  predicate ScoresWithin(rs: seq<Rating>, lo: real, hi: real) {
    forall i :: 0 <= i < |rs| ==> lo <= rs[i].rating <= hi
  }

  lemma {:induction false} RatingSumBounds(rs: seq<Rating>, lo: real, hi: real)
    requires ScoresWithin(rs, lo, hi)
    ensures (|rs| as real) * lo <= RatingSum(rs) <= (|rs| as real) * hi
    decreases |rs|
  {
    if rs != [] {
      var rs' := rs[..|rs| - 1];
      assert ScoresWithin(rs', lo, hi) by {
        assert forall i :: 0 <= i < |rs'| ==> rs'[i] == rs[i];
      }
      RatingSumBounds(rs', lo, hi);
      assert (|rs| as real) * lo == (|rs'| as real) * lo + lo;
      assert (|rs| as real) * hi == (|rs'| as real) * hi + hi;
    }
  }

  /** Whatever range the scores keep to, the average keeps to it too. */
  lemma AverageWithinBounds(rs: seq<Rating>, lo: real, hi: real)
    requires rs != []
    requires ScoresWithin(rs, lo, hi)
    ensures lo <= AverageRating(rs) <= hi
  {
    RatingSumBounds(rs, lo, hi);
    var n := |rs| as real;
    var avg := AverageRating(rs);
    assert avg * n == RatingSum(rs);
    assert n * lo <= n * avg <= n * hi;
  }
}

=== FILE: routes.dfy ===
/**
 * The recipe routes of the server as pure transitions: each takes the stored documents and,
 * except the read, the authenticated user's id, and returns an HTTP status, a response body and the documents
 * as they stand after the handler's `save` or `remove`.
 */
module Routes {
  import opened Basics
  import opened RecipeModel
  import opened Engagement

  /** The part of a user document the routes touch. */
  datatype User = User(name: string, favorites: seq<RecipeId>)

  /** The two collections, keyed by document id. */
  datatype Db = Db(recipes: map<RecipeId, Recipe>, users: map<UserId, User>)

  /** The status codes the handlers send. */
  datatype Status = Ok | Created | Forbidden | NotFound | ServerError

  datatype Response<T> = Response(status: Status, body: Option<T>, db: Db)

  /** Fields an update request may carry; an absent field leaves the stored value as it was. */
  datatype Patch = Patch(
    title: Option<string>,
    ingredients: Option<seq<string>>,
    instructions: Option<seq<string>>,
    difficulty: Option<string>,
    cuisineType: Option<string>
  )

  function Pick<T>(p: Option<T>, current: T): (v: T) {
    match p
    case Some(v) => v
    case None => current
  }

  /** The same documents with recipe `id` replaced by `r`. */
  function WithRecipe(db: Db, id: RecipeId, r: Recipe): (db': Db)
    ensures db'.users == db.users
    ensures db'.recipes.Keys == db.recipes.Keys + {id} && db'.recipes[id] == r
    ensures forall k :: k in db.recipes && k != id ==> db'.recipes[k] == db.recipes[k]
  {
    db.(recipes := db.recipes[id := r])
  }

  /**
   * POST /recipes: store the client's fields under a fresh id, with the author forced to the
   * authenticated user whatever the body claims, no engagement yet and the server clock as
   * creation time.
   */
  function CreateRecipe(db: Db, me: UserId, body: Draft, freshId: RecipeId, now: int): (res: Response<Recipe>)
    requires freshId !in db.recipes
    ensures res.status == Created && res.body.Some?
    ensures var r := res.body.value;
      && r.author == me && r.id == freshId && r.createdAt == now
      && r.ratings == [] && r.comments == []
      && r.title == body.title && r.ingredients == body.ingredients && r.instructions == body.instructions
      && r.difficulty == body.difficulty && r.cuisineType == body.cuisineType
    ensures res.db.recipes == db.recipes[freshId := res.body.value] && res.db.users == db.users
  {
    var r := Recipe(freshId, body.title, body.ingredients, body.instructions, body.difficulty,
                    body.cuisineType, me, [], [], now);
    Response(Created, Some(r), WithRecipe(db, freshId, r))
  }

  /** GET /recipes/:id: the document, or 404. Reads never change the store. */
  function GetRecipe(db: Db, id: RecipeId): (res: Response<Recipe>)
    ensures res.db == db
    ensures res.status == NotFound <==> id !in db.recipes
    ensures res.status == Ok <==> id in db.recipes
    ensures res.status == Ok ==> res.body == Some(db.recipes[id])
  {
    if id !in db.recipes then Response(NotFound, None, db) else Response(Ok, Some(db.recipes[id]), db)
  }

  /** PUT /recipes/:id: 404 for a missing recipe, 403 for anyone but its author, else patch it. */
  function UpdateRecipe(db: Db, me: UserId, id: RecipeId, patch: Patch): (res: Response<Recipe>)
    ensures res.status == NotFound <==> id !in db.recipes
    ensures res.status == Forbidden <==> id in db.recipes && db.recipes[id].author != me
    ensures res.status in {NotFound, Forbidden} ==> res.db == db && res.body == None
    ensures res.status == Ok <==> id in db.recipes && db.recipes[id].author == me
    ensures res.status == Ok ==> res.db.recipes.Keys == db.recipes.Keys && res.db.users == db.users
    ensures res.status == Ok ==>
      var r := res.db.recipes[id];
      && res.body == Some(r)
      && r.author == me && r.ratings == db.recipes[id].ratings && r.comments == db.recipes[id].comments
      && r.createdAt == db.recipes[id].createdAt
    ensures forall k :: k in db.recipes && k != id ==> k in res.db.recipes && res.db.recipes[k] == db.recipes[k]
  {
    if id !in db.recipes then Response(NotFound, None, db)
    else
      var stored := db.recipes[id];
      if stored.author != me then Response(Forbidden, None, db)
      else
        var r := stored.(title := Pick(patch.title, stored.title),
                      ingredients := Pick(patch.ingredients, stored.ingredients),
                      instructions := Pick(patch.instructions, stored.instructions),
                      difficulty := Pick(patch.difficulty, stored.difficulty),
                      cuisineType := Pick(patch.cuisineType, stored.cuisineType));
        Response(Ok, Some(r), WithRecipe(db, id, r))
  }

  /** DELETE /recipes/:id: 404 for a missing recipe, 403 for anyone but its author, else remove it. */
  function DeleteRecipe(db: Db, me: UserId, id: RecipeId): (res: Response<()>)
    ensures res.status == NotFound <==> id !in db.recipes
    ensures res.status == Forbidden <==> id in db.recipes && db.recipes[id].author != me
    ensures res.status in {NotFound, Forbidden} ==> res.db == db
    ensures res.status == Ok <==> id in db.recipes && db.recipes[id].author == me
    ensures res.status == Ok ==> res.db.recipes.Keys == db.recipes.Keys - {id} && res.db.users == db.users
    ensures forall k :: k in res.db.recipes ==> k in db.recipes && res.db.recipes[k] == db.recipes[k]
  {
    if id !in db.recipes then Response(NotFound, None, db)
    else if db.recipes[id].author != me then Response(Forbidden, None, db)
    else Response(Ok, Some(()), db.(recipes := db.recipes - {id}))
  }

  /**
   * POST /recipes/:id/favorite: add the id to the user's favorites unless it is already there.
   * The route never looks the recipe up, so any id is accepted; a user id with no document makes
   * the handler dereference null, which the catch turns into a 500 with nothing saved.
   */
  function FavoriteRecipe(db: Db, me: UserId, id: RecipeId): (res: Response<()>)
    ensures res.status == ServerError <==> me !in db.users
    ensures res.status == ServerError ==> res.db == db
    ensures res.status == Ok <==> me in db.users
    ensures res.status == Ok ==>
      && res.db.recipes == db.recipes && res.db.users.Keys == db.users.Keys
      && id in res.db.users[me].favorites
      && (forall x :: x in res.db.users[me].favorites <==> x in db.users[me].favorites || x == id)
      && res.db.users[me].name == db.users[me].name
      && (id in db.users[me].favorites ==> res.db.users[me] == db.users[me])
      && (id !in db.users[me].favorites ==> res.db.users[me].favorites == db.users[me].favorites + [id])
    ensures forall u :: u in db.users && u != me ==> u in res.db.users && res.db.users[u] == db.users[u]
  {
    if me !in db.users then Response(ServerError, None, db)
    else
      var user := db.users[me];
      Response(Ok, Some(()), db.(users := db.users[me := user.(favorites := AddFavorite(user.favorites, id))]))
  }

  /**
   * POST /recipes/:id/rate: 404 for a missing recipe; otherwise upsert the user's score and
   * answer with the average of the ratings just saved.
   */
  function RateRecipe(db: Db, me: UserId, id: RecipeId, score: real): (res: Response<real>)
    ensures res.status == NotFound <==> id !in db.recipes
    ensures res.status == NotFound ==> res.db == db && res.body == None
    ensures res.status == Ok <==> id in db.recipes
    ensures res.status == Ok ==> res.db.recipes.Keys == db.recipes.Keys && res.db.users == db.users
    ensures res.status == Ok ==>
      var r := res.db.recipes[id];
      && ScoreOf(r.ratings, me) == Some(score)
      && (forall w :: w != me ==> ScoreOf(r.ratings, w) == ScoreOf(db.recipes[id].ratings, w))
      && r.comments == db.recipes[id].comments
      && r == db.recipes[id].(ratings := r.ratings)
      && r.ratings == UpsertRating(db.recipes[id].ratings, me, score)
      && res.body == Some(AverageRating(r.ratings))
    ensures forall k :: k in db.recipes && k != id ==> k in res.db.recipes && res.db.recipes[k] == db.recipes[k]
  {
    if id !in db.recipes then Response(NotFound, None, db)
    else
      var stored := db.recipes[id];
      var r := stored.(ratings := UpsertRating(stored.ratings, me, score));
      forall w | w != me ensures ScoreOf(r.ratings, w) == ScoreOf(stored.ratings, w) {
        UpsertKeepsOtherScores(stored.ratings, me, score, w);
      }
      Response(Ok, Some(AverageRating(r.ratings)), WithRecipe(db, id, r))
  }

  /**
   * POST /recipes/:id/comment: 404 for a missing recipe; otherwise append the comment, stamped
   * with the server clock, and answer with the whole comment list.
   */
  function CommentOnRecipe(db: Db, me: UserId, id: RecipeId, text: string, now: int): (res: Response<seq<Comment>>)
    ensures res.status == NotFound <==> id !in db.recipes
    ensures res.status == NotFound ==> res.db == db && res.body == None
    ensures res.status == Ok <==> id in db.recipes
    ensures res.status == Ok ==> res.db.recipes.Keys == db.recipes.Keys && res.db.users == db.users
    ensures res.status == Ok ==>
      var r := res.db.recipes[id];
      var before := db.recipes[id].comments;
      && |r.comments| == |before| + 1
      && r.comments[..|before|] == before
      && r.comments[|before|] == Comment(me, text, now)
      && r.ratings == db.recipes[id].ratings
      && r == db.recipes[id].(comments := r.comments)
      && res.body == Some(r.comments)
    ensures forall k :: k in db.recipes && k != id ==> k in res.db.recipes && res.db.recipes[k] == db.recipes[k]
  {
    if id !in db.recipes then Response(NotFound, None, db)
    else
      var stored := db.recipes[id];
      var r := stored.(comments := AppendComment(stored.comments, Comment(me, text, now)));
      Response(Ok, Some(r.comments), WithRecipe(db, id, r))
  }

  /** The store-wide invariants: one rating per user on every recipe, no repeated favorite. */
  predicate Consistent(db: Db) {
    && (forall k :: k in db.recipes ==> OneRatingPerUser(db.recipes[k].ratings))
    && (forall u :: u in db.users ==> NoDuplicates(db.users[u].favorites))
  }

  /**
   * Every route keeps the store consistent, whatever its outcome, for request bodies that carry
   * only the form's fields: a hand-made create or update body holding its own `ratings` list
   * would be stored as sent.
   */
  lemma CreatePreservesConsistency(db: Db, me: UserId, body: Draft, freshId: RecipeId, now: int)
    requires Consistent(db) && freshId !in db.recipes
    ensures Consistent(CreateRecipe(db, me, body, freshId, now).db)
  {
  }

  lemma UpdatePreservesConsistency(db: Db, me: UserId, id: RecipeId, patch: Patch)
    requires Consistent(db)
    ensures Consistent(UpdateRecipe(db, me, id, patch).db)
  {
  }

  lemma DeletePreservesConsistency(db: Db, me: UserId, id: RecipeId)
    requires Consistent(db)
    ensures Consistent(DeleteRecipe(db, me, id).db)
  {
  }

  lemma FavoritePreservesConsistency(db: Db, me: UserId, id: RecipeId)
    requires Consistent(db)
    ensures Consistent(FavoriteRecipe(db, me, id).db)
  {
  }

  lemma RatePreservesConsistency(db: Db, me: UserId, id: RecipeId, score: real)
    requires Consistent(db)
    ensures Consistent(RateRecipe(db, me, id, score).db)
  {
    if id in db.recipes {
      UpsertKeepsOneRatingPerUser(db.recipes[id].ratings, me, score);
    }
  }

  lemma CommentPreservesConsistency(db: Db, me: UserId, id: RecipeId, text: string, now: int)
    requires Consistent(db)
    ensures Consistent(CommentOnRecipe(db, me, id, text, now).db)
  {
  }
}

=== FILE: search_cache.dfy ===
/**
 * The search page's result cache in the browser's localStorage: entries keyed by the search
 * parameters, each holding the results and an expiry instant five minutes after it was written.
 * localStorage is a map from keys to entries and the clock (milliseconds) is a parameter.
 */
module SearchCache {
  import opened Basics
  import opened RecipeModel

  const CACHE_PREFIX: string := "recipeSearch_"

  /** Five minutes, in milliseconds. */
  const CACHE_EXPIRATION: int := 5 * 60 * 1000

  /** A stored item: the search results and the instant after which they are stale. */
  datatype Entry = Entry(results: seq<Recipe>, expiry: int)

  type Storage = map<string, Entry>

  predicate HasCachePrefix(key: string) {
    |CACHE_PREFIX| <= |key| && key[..|CACHE_PREFIX|] == CACHE_PREFIX
  }

  /** `recipeSearch_${query}_${difficulty}_${cuisineType}`. */
  function CacheKey(query: string, difficulty: string, cuisineType: string): (key: string)
    ensures HasCachePrefix(key)
    ensures |key| == |CACHE_PREFIX| + |query| + |difficulty| + |cuisineType| + 2
    ensures key[|CACHE_PREFIX|..|CACHE_PREFIX| + |query|] == query
  {
    CACHE_PREFIX + query + "_" + difficulty + "_" + cuisineType
  }

  /** Two strings laid over the same length that differ somewhere differ at some index. */
  lemma DifferAtSomeIndex(a: string, b: string)
    requires |a| == |b| && a != b
    ensures exists i :: 0 <= i < |a| && a[i] != b[i]
  {
  }

  /** Changing only the query changes the key. */
  lemma CacheKeyDistinguishesQuery(q: string, q': string, d: string, c: string)
    requires q != q'
    ensures CacheKey(q, d, c) != CacheKey(q', d, c)
  {
    if |q| == |q'| {
      DifferAtSomeIndex(q, q');
      var i :| 0 <= i < |q| && q[i] != q'[i];
      assert CacheKey(q, d, c)[|CACHE_PREFIX| + i] == q[i];
      assert CacheKey(q', d, c)[|CACHE_PREFIX| + i] == q'[i];
    }
  }

  /** Changing only the difficulty changes the key. */
  lemma CacheKeyDistinguishesDifficulty(q: string, d: string, d': string, c: string)
    requires d != d'
    ensures CacheKey(q, d, c) != CacheKey(q, d', c)
  {
    if |d| == |d'| {
      DifferAtSomeIndex(d, d');
      var i :| 0 <= i < |d| && d[i] != d'[i];
      var at := |CACHE_PREFIX| + |q| + 1 + i;
      assert CacheKey(q, d, c)[at] == d[i];
      assert CacheKey(q, d', c)[at] == d'[i];
    }
  }

  /** Changing only the cuisine changes the key. */
  lemma CacheKeyDistinguishesCuisine(q: string, d: string, c: string, c': string)
    requires c != c'
    ensures CacheKey(q, d, c) != CacheKey(q, d, c')
  {
    if |c| == |c'| {
      DifferAtSomeIndex(c, c');
      var i :| 0 <= i < |c| && c[i] != c'[i];
      var at := |CACHE_PREFIX| + |q| + |d| + 2 + i;
      assert CacheKey(q, d, c)[at] == c[i];
      assert CacheKey(q, d, c')[at] == c'[i];
    }
  }

  /**
   * The key is not injective: the fields are joined with `_` without escaping, so an
   * underscore moved from the end of the query to the front of the cuisine gives the same key.
   */
  lemma CacheKeyCollides()
    ensures CacheKey("pasta_", "", "Thai") == CacheKey("pasta", "", "_Thai")
  {
    assert CacheKey("pasta_", "", "Thai") == "recipeSearch_pasta___Thai";
    assert CacheKey("pasta", "", "_Thai") == "recipeSearch_pasta___Thai";
  }

  /** `getCachedResults`: the stored results while the clock is strictly before the expiry. */
  function GetCachedResults(storage: Storage, key: string, now: int): (found: Option<seq<Recipe>>)
    ensures found.Some? <==> key in storage && now < storage[key].expiry
    ensures found.Some? ==> found.value == storage[key].results
  {
    if key in storage && now < storage[key].expiry then Some(storage[key].results) else None
  }

  /** `setCachedResults`: write the results with an expiry five minutes from now, replacing any entry. */
  function SetCachedResults(storage: Storage, key: string, results: seq<Recipe>, now: int): (storage': Storage)
    ensures storage'.Keys == storage.Keys + {key}
    ensures storage'[key] == Entry(results, now + CACHE_EXPIRATION)
    ensures forall k :: k in storage && k != key ==> storage'[k] == storage[k]
  {
    storage[key := Entry(results, now + CACHE_EXPIRATION)]
  }

  /** Results stored at `t` are served until just before `t` plus five minutes, and not after. */
  lemma StoreThenLookup(storage: Storage, key: string, results: seq<Recipe>, t: int, t': int)
    ensures t' < t + CACHE_EXPIRATION ==> GetCachedResults(SetCachedResults(storage, key, results, t), key, t') == Some(results)
    ensures t' >= t + CACHE_EXPIRATION ==> GetCachedResults(SetCachedResults(storage, key, results, t), key, t') == None
  {
  }

  /** The last write to a key wins. */
  lemma LastWriterWins(storage: Storage, key: string, first: seq<Recipe>, t1: int, second: seq<Recipe>, t2: int)
    ensures SetCachedResults(SetCachedResults(storage, key, first, t1), key, second, t2)
         == SetCachedResults(storage, key, second, t2)
  {
  }

  /** A cache entry the sweep removes: prefixed and strictly past its expiry. */
  predicate Expired(storage: Storage, key: string, now: int)
    requires key in storage
  {
    HasCachePrefix(key) && now > storage[key].expiry
  }

  /** `clearExpiredCache`: delete exactly the prefixed keys whose expiry has passed. */
  function ClearExpiredCache(storage: Storage, now: int): (swept: Storage)
    ensures forall k :: k in swept <==> k in storage && !Expired(storage, k, now)
    ensures forall k :: k in swept ==> swept[k] == storage[k]
  {
    map k | k in storage && !Expired(storage, k, now) :: storage[k]
  }

  /** The sweep as the page runs it: one key of localStorage at a time. */
  method SweepExpired(storage: Storage, now: int) returns (swept: Storage)
    ensures swept == ClearExpiredCache(storage, now)
  {
    swept := storage;
    var pending := storage.Keys;
    while pending != {}
      invariant pending <= storage.Keys
      invariant swept.Keys <= storage.Keys
      invariant forall k :: k in storage && k !in pending ==> (k in swept <==> !Expired(storage, k, now))
      invariant forall k :: k in pending ==> k in swept
      invariant forall k :: k in swept ==> swept[k] == storage[k]
      decreases pending
    {
      var key :| key in pending;
      if HasCachePrefix(key) {
        if now > swept[key].expiry {
          swept := swept - {key};
        }
      }
      pending := pending - {key};
    }
  }

  /** Sweeping twice at the same instant removes nothing more. */
  lemma SweepIdempotent(storage: Storage, now: int)
    ensures ClearExpiredCache(ClearExpiredCache(storage, now), now) == ClearExpiredCache(storage, now)
  {
  }

  /**
   * A sweep at `now` never changes what a lookup at `now` or later answers: it only removes
   * entries such a lookup would already treat as a miss.
   */
  lemma SweepPreservesLookups(storage: Storage, key: string, now: int, later: int)
    requires now <= later
    ensures GetCachedResults(ClearExpiredCache(storage, now), key, later) == GetCachedResults(storage, key, later)
  {
  }

  /** An entry whose expiry is exactly `now` is neither served nor swept at `now`. */
  lemma ExpiryInstantIsNeitherServedNorSwept(storage: Storage, key: string, now: int)
    requires key in storage && storage[key].expiry == now
    ensures GetCachedResults(storage, key, now) == None
    ensures key in ClearExpiredCache(storage, now)
  {
  }

  /** How the search request ended: an HTTP response with its `ok` flag, or a thrown error. */
  datatype FetchOutcome = Responded(ok: bool, data: seq<Recipe>) | Threw

  /** What one search leaves behind: the results on screen, the storage, and whether it fetched. */
  datatype SearchStep = SearchStep(shown: seq<Recipe>, storage: Storage, fetched: bool)

  /**
   * `handleSearch`: a cache hit (an empty result list included, since an array is truthy) is
   * shown without a request; on a miss the request is made, and only an ok response is shown
   * and written to the cache, stamped with the clock reading `storedAt` taken after the await.
   * The write itself may throw (a full storage quota, say: `writeFails`); the results are
   * already shown by then, and the catch leaves the storage as it was.
   */
  function HandleSearch(storage: Storage, shown: seq<Recipe>, query: string, difficulty: string, cuisineType: string,
                        now: int, outcome: FetchOutcome, storedAt: int, writeFails: bool): (step: SearchStep)
    ensures var key := CacheKey(query, difficulty, cuisineType);
      GetCachedResults(storage, key, now).Some? ==>
        step == SearchStep(storage[key].results, storage, false)
    ensures var key := CacheKey(query, difficulty, cuisineType);
      GetCachedResults(storage, key, now).None? ==>
        && step.fetched
        && (outcome.Responded? && outcome.ok ==>
              step.shown == outcome.data
              && step.storage == (if writeFails then storage else SetCachedResults(storage, key, outcome.data, storedAt)))
        && (!(outcome.Responded? && outcome.ok) ==> step.shown == shown && step.storage == storage)
  {
    var key := CacheKey(query, difficulty, cuisineType);
    match GetCachedResults(storage, key, now)
    case Some(cached) => SearchStep(cached, storage, false)
    case None =>
      match outcome
      case Responded(ok, data) =>
        if ok then SearchStep(data, if writeFails then storage else SetCachedResults(storage, key, data, storedAt), true)
        else SearchStep(shown, storage, true)
      case Threw => SearchStep(shown, storage, true)
  }

  /**
   * Repeating a search within five minutes of a successful one is served from the cache: the
   * same results, no second request.
   */
  lemma RepeatSearchHitsCache(storage: Storage, shown: seq<Recipe>, q: string, d: string, c: string,
                              now: int, data: seq<Recipe>, storedAt: int,
                              again: int, outcome2: FetchOutcome, storedAt2: int, writeFails2: bool)
    requires GetCachedResults(storage, CacheKey(q, d, c), now).None?
    requires again < storedAt + CACHE_EXPIRATION
    ensures var first := HandleSearch(storage, shown, q, d, c, now, Responded(true, data), storedAt, false);
      var second := HandleSearch(first.storage, first.shown, q, d, c, again, outcome2, storedAt2, writeFails2);
      && second.shown == data && !second.fetched && second.storage == first.storage
  {
  }

  /**
   * A write that throws still shows the fetched results, but caches nothing: the same search
   * again goes back to the server.
   */
  lemma FailedWriteShowsButRefetches(storage: Storage, shown: seq<Recipe>, q: string, d: string, c: string,
                                     now: int, data: seq<Recipe>, storedAt: int,
                                     again: int, outcome2: FetchOutcome, storedAt2: int, writeFails2: bool)
    requires GetCachedResults(storage, CacheKey(q, d, c), now).None?
    requires GetCachedResults(storage, CacheKey(q, d, c), again).None?
    ensures var first := HandleSearch(storage, shown, q, d, c, now, Responded(true, data), storedAt, true);
      var second := HandleSearch(first.storage, first.shown, q, d, c, again, outcome2, storedAt2, writeFails2);
      && first.shown == data && first.fetched && first.storage == storage && second.fetched
  {
  }

  /** A failed request leaves the cache exactly as it was. */
  lemma FailedSearchLeavesCache(storage: Storage, shown: seq<Recipe>, q: string, d: string, c: string,
                                now: int, outcome: FetchOutcome, storedAt: int, writeFails: bool)
    requires !(outcome.Responded? && outcome.ok)
    ensures HandleSearch(storage, shown, q, d, c, now, outcome, storedAt, writeFails).storage == storage
  {
  }
}

=== FILE: search_filter.dfy ===
/**
 * GET /search: the Mongo filter built from the query string and the recipes it selects.
 * How a query string matches a field (a case-insensitive regular expression in the store) is
 * not modelled: it arrives as the `matches` relation.
 */
module SearchFilter {
  import opened Basics
  import opened RecipeModel

  /** A query-string parameter is truthy when it is present and not the empty string. */
  predicate Given(p: Option<string>) {
    p.Some? && p.value != ""
  }

  /** The filter document: each part is either absent or the constraint the route adds. */
  datatype Filter = Filter(text: Option<string>, difficulty: Option<string>, cuisineType: Option<string>)

  /** The route's filter construction: only truthy parameters add a constraint. */
  function BuildFilter(query: Option<string>, difficulty: Option<string>, cuisineType: Option<string>): (f: Filter)
    ensures f.text.Some? <==> Given(query)
    ensures f.difficulty.Some? <==> Given(difficulty)
    ensures f.cuisineType.Some? <==> Given(cuisineType)
    ensures f.text.Some? ==> f.text == query
    ensures f.difficulty.Some? ==> f.difficulty == difficulty
    ensures f.cuisineType.Some? ==> f.cuisineType == cuisineType
  {
    Filter(
      if Given(query) then query else None,
      if Given(difficulty) then difficulty else None,
      if Given(cuisineType) then cuisineType else None
    )
  }

  /** A recipe satisfies a filter: the `$or` over title and ingredients, then the equalities. */
  predicate Selects(f: Filter, r: Recipe, matches: (string, string) -> bool) {
    && (f.text.Some? ==>
          matches(f.text.value, r.title) || exists i :: 0 <= i < |r.ingredients| && matches(f.text.value, r.ingredients[i]))
    && (f.difficulty.Some? ==> r.difficulty == f.difficulty.value)
    && (f.cuisineType.Some? ==> r.cuisineType == f.cuisineType.value)
  }

  /**
   * What a search asks of a recipe, stated directly on the parameters: an empty or absent
   * parameter asks nothing, a difficulty or cuisine asks for equality, and a query asks for a
   * match in the title or in some ingredient.
   */
  lemma SearchSemantics(query: Option<string>, difficulty: Option<string>, cuisineType: Option<string>,
                        r: Recipe, matches: (string, string) -> bool)
    ensures Selects(BuildFilter(query, difficulty, cuisineType), r, matches) <==>
      && (!Given(query) || matches(query.value, r.title)
          || exists i :: 0 <= i < |r.ingredients| && matches(query.value, r.ingredients[i]))
      && (!Given(difficulty) || r.difficulty == difficulty.value)
      && (!Given(cuisineType) || r.cuisineType == cuisineType.value)
  {
  }

  /** The recipes, in stored order, that a filter selects. */
  function FindRecipes(recipes: seq<Recipe>, f: Filter, matches: (string, string) -> bool): (found: seq<Recipe>)
    ensures forall r :: r in found <==> r in recipes && Selects(f, r, matches)
    ensures |found| <= |recipes|
  {
    if recipes == [] then []
    else
      var rest := FindRecipes(recipes[1..], f, matches);
      assert recipes == [recipes[0]] + recipes[1..];
      if Selects(f, recipes[0], matches) then [recipes[0]] + rest else rest
  }

  /** A search whose parameters are all empty or absent returns every recipe, in stored order. */
  lemma {:induction false} EmptySearchReturnsAll(recipes: seq<Recipe>, query: Option<string>, difficulty: Option<string>,
                                                 cuisineType: Option<string>, matches: (string, string) -> bool)
    requires !Given(query) && !Given(difficulty) && !Given(cuisineType)
    ensures FindRecipes(recipes, BuildFilter(query, difficulty, cuisineType), matches) == recipes
    decreases |recipes|
  {
    if recipes != [] {
      EmptySearchReturnsAll(recipes[1..], query, difficulty, cuisineType, matches);
    }
  }
}

=== FILE: text.dfy ===
/**
 * The string trimming the form code relies on: ECMAScript's String.prototype.trim,
 * which removes leading and trailing WhiteSpace and LineTerminator code points.
 */
module Text {

  /** The WhiteSpace and LineTerminator code points of ECMAScript (sections 12.2 and 12.3 of ECMA-262). */
  const SPACES: set<char> := {
    '\t', '\U{000B}', '\U{000C}', ' ', '\U{00A0}', '\U{FEFF}',
    '\n', '\r', '\U{2028}', '\U{2029}',
    '\U{1680}', '\U{2000}', '\U{2001}', '\U{2002}', '\U{2003}', '\U{2004}', '\U{2005}',
    '\U{2006}', '\U{2007}', '\U{2008}', '\U{2009}', '\U{200A}', '\U{202F}', '\U{205F}', '\U{3000}'
  }

  predicate IsSpace(c: char) {
    c in SPACES
  }

  /** A string made of nothing but white space (the empty string included). */
  predicate IsBlank(s: string) {
    forall i :: 0 <= i < |s| ==> IsSpace(s[i])
  }

  /** The number of white-space characters `s` starts with. */
  function LeadingSpaces(s: string): (n: nat)
    ensures n <= |s|
    ensures forall i :: 0 <= i < n ==> IsSpace(s[i])
    ensures n < |s| ==> !IsSpace(s[n])
  {
    if s == [] || !IsSpace(s[0]) then 0 else 1 + LeadingSpaces(s[1..])
  }

  /** The number of white-space characters `s` ends with. */
  function TrailingSpaces(s: string): (n: nat)
    ensures n <= |s|
    ensures forall i :: |s| - n <= i < |s| ==> IsSpace(s[i])
    ensures n < |s| ==> !IsSpace(s[|s| - 1 - n])
  {
    if s == [] || !IsSpace(s[|s| - 1]) then 0 else 1 + TrailingSpaces(s[..|s| - 1])
  }

  /**
   * `s.trim()`: `s` without its leading and trailing white space. The result is empty exactly
   * when `s` is blank, and otherwise neither starts nor ends with white space.
   */
  function Trim(s: string): (r: string)
    ensures r == [] <==> IsBlank(s)
    ensures r != [] ==> !IsSpace(r[0]) && !IsSpace(r[|r| - 1])
  {
    var lead := LeadingSpaces(s);
    if lead == |s| then []
    else
      var trail := TrailingSpaces(s);
      assert !IsSpace(s[lead]);
      s[lead..|s| - trail]
  }

  /** JavaScript truthiness of `s.trim()`: the string has a character that is not white space. */
  predicate IsFilled(s: string) {
    Trim(s) != []
  }
}

=== FILE: trending.dfy ===
/**
 * GET /trending: order every recipe by (rating count, comment count, creation time), each
 * descending, and keep the first ten.
 */
module Trending {
  import opened RecipeModel

  /** The number of recipes the route returns at most. */
  const TRENDING_LIMIT: nat := 10

  /**
   * `a` may come before `b`: its (ratingCount, commentCount, createdAt) key is lexicographically
   * at least `b`'s.
   */
  predicate RanksAtLeast(a: Recipe, b: Recipe) {
    || |a.ratings| > |b.ratings|
    || (|a.ratings| == |b.ratings| && |a.comments| > |b.comments|)
    || (|a.ratings| == |b.ratings| && |a.comments| == |b.comments| && a.createdAt >= b.createdAt)
  }

  /** Ordered by the trending key, highest first; ties may sit in any order. */
  predicate SortedByEngagement(s: seq<Recipe>) {
    forall i, j :: 0 <= i < j < |s| ==> RanksAtLeast(s[i], s[j])
  }

  lemma RanksAtLeastTotal(a: Recipe, b: Recipe)
    ensures RanksAtLeast(a, b) || RanksAtLeast(b, a)
  {
  }

  /** `z` ranks at least as high as every recipe of `s`. */
  predicate RanksAtLeastAll(z: Recipe, s: seq<Recipe>) {
    forall j :: 0 <= j < |s| ==> RanksAtLeast(z, s[j])
  }

  /** Puts `x` in front of the first entry of `s` that it ranks at least as high as. */
  function Insert(x: Recipe, s: seq<Recipe>): (r: seq<Recipe>)
    ensures multiset(r) == multiset(s) + multiset{x}
  {
    if s == [] then [x]
    else if RanksAtLeast(x, s[0]) then [x] + s
    else
      assert s == [s[0]] + s[1..];
      [s[0]] + Insert(x, s[1..])
  }

  /** A recipe that ranks at least as high as `x` and everything in `s` still does after the insertion. */
  lemma {:induction false} InsertKeepsBound(z: Recipe, x: Recipe, s: seq<Recipe>)
    requires RanksAtLeast(z, x) && RanksAtLeastAll(z, s)
    ensures RanksAtLeastAll(z, Insert(x, s))
    decreases |s|
  {
    if s != [] && !RanksAtLeast(x, s[0]) {
      InsertKeepsBound(z, x, s[1..]);
      var r := Insert(x, s);
      assert forall j :: 1 <= j < |r| ==> r[j] == Insert(x, s[1..])[j - 1];
    }
  }

  /** Inserting into a list in trending order keeps it in trending order. */
  lemma {:induction false} InsertKeepsSorted(x: Recipe, s: seq<Recipe>)
    requires SortedByEngagement(s)
    ensures SortedByEngagement(Insert(x, s))
    decreases |s|
  {
    if s == [] {
    } else if RanksAtLeast(x, s[0]) {
      assert RanksAtLeastAll(x, s);
    } else {
      var tail := s[1..];
      var rest := Insert(x, tail);
      assert SortedByEngagement(tail);
      InsertKeepsSorted(x, tail);
      RanksAtLeastTotal(x, s[0]);
      assert RanksAtLeastAll(s[0], tail);
      InsertKeepsBound(s[0], x, tail);
      assert Insert(x, s) == [s[0]] + rest;
    }
  }

  /** The `$sort` stage: the recipes in trending order (an insertion sort). */
  function SortByEngagement(s: seq<Recipe>): (r: seq<Recipe>)
    ensures SortedByEngagement(r)
    ensures multiset(r) == multiset(s)
    ensures |r| == |s|
  {
    if s == [] then []
    else
      var rest := SortByEngagement(s[1..]);
      InsertKeepsSorted(s[0], rest);
      assert s == [s[0]] + s[1..];
      Insert(s[0], rest)
  }

  function Min(a: nat, b: nat): (m: nat) {
    if a < b then a else b
  }

  /** The trending route: sort every recipe, then `$limit` to the first ten. */
  function TrendingRecipes(recipes: seq<Recipe>): (top: seq<Recipe>)
    ensures |top| == Min(TRENDING_LIMIT, |recipes|)
    ensures SortedByEngagement(top)
    ensures multiset(top) <= multiset(recipes)
  {
    var sorted := SortByEngagement(recipes);
    var top := sorted[..Min(TRENDING_LIMIT, |sorted|)];
    assert multiset(top) <= multiset(sorted) by {
      assert sorted == top + sorted[|top|..];
    }
    assert SortedByEngagement(top) by {
      assert forall i :: 0 <= i < |top| ==> top[i] == sorted[i];
    }
    top
  }

  /** In a sorted list, everything before a cut ranks at least as high as everything after it. */
  lemma SortedCut(sorted: seq<Recipe>, k: nat)
    requires SortedByEngagement(sorted) && k <= |sorted|
    ensures forall x, y :: x in sorted[..k] && y in sorted[k..] ==> RanksAtLeast(x, y)
  {
    forall x, y | x in sorted[..k] && y in sorted[k..] ensures RanksAtLeast(x, y) {
      var i :| 0 <= i < k && sorted[..k][i] == x;
      var j :| 0 <= j < |sorted| - k && sorted[k..][j] == y;
      assert sorted[i] == x && sorted[k + j] == y;
    }
  }

  /** No recipe left out of the trending list ranks strictly above one that made it in. */
  lemma TrendingIsTopK(recipes: seq<Recipe>)
    ensures var top := TrendingRecipes(recipes);
      forall x, y :: x in top && y in multiset(recipes) - multiset(top) ==> RanksAtLeast(x, y)
  {
    var sorted := SortByEngagement(recipes);
    var top := TrendingRecipes(recipes);
    var k := |top|;
    assert top == sorted[..k];
    assert sorted == top + sorted[k..];
    assert multiset(recipes) - multiset(top) == multiset(sorted[k..]);
    SortedCut(sorted, k);
  }

  /** Ten or fewer recipes are all returned, in trending order. */
  lemma ShortCollectionsAreReturnedWhole(recipes: seq<Recipe>)
    requires |recipes| <= TRENDING_LIMIT
    ensures multiset(TrendingRecipes(recipes)) == multiset(recipes)
  {
    var top := TrendingRecipes(recipes);
    assert multiset(recipes) - multiset(top) == multiset{} by {
      assert |multiset(top)| == |multiset(recipes)|;
      assert multiset(top) <= multiset(recipes);
    }
  }

  /** Equal rating counts are broken by comment count: 5 ratings and 3 comments beat 5 and 2. */
  lemma CommentCountBreaksTies(a: Recipe, b: Recipe)
    requires |a.ratings| == 5 && |a.comments| == 2 && |b.ratings| == 5 && |b.comments| == 3
    requires a.createdAt == b.createdAt
    ensures TrendingRecipes([a, b]) == [b, a]
  {
    assert [a, b][1..] == [b];
    assert SortByEngagement([b]) == [b] by {
      assert [b][1..] == [];
    }
  }

  /** One rating outranks none at all, whatever the creation times. */
  lemma RatingCountRanksFirst(x: Recipe, y: Recipe)
    requires |x.ratings| == 0 && |x.comments| == 0 && |y.ratings| == 1 && |y.comments| == 0
    ensures TrendingRecipes([x, y]) == [y, x]
  {
    assert [x, y][1..] == [y];
    assert SortByEngagement([y]) == [y] by {
      assert [y][1..] == [];
    }
  }
}
